=== FILE: README.md ===
# DirectoryViewer navigation model

DirectoryViewer is a small desktop folder browser. It opens on a folder and
shows that folder's subfolders and files as a column of buttons. Clicking a
folder button enters the folder. Clicking a file button hands the file to the
operating system's default handler. A Back button returns through the folders
visited so far.

The logic behind this lives in the `MainForm` window, and this project models
it:

- the navigation history, a stack of folder paths seeded with the initial
  folder;
- the item-click handler, which tests "is a folder" first and "is a file"
  second;
- the Back handler, which pops only while more than one folder is left;
- the loading of a folder, which clears the panel and refills it with every
  subfolder and then every file, each button tagged with its full path.

The model has three modules:

- `Directories` holds the file system as an oracle (`FileSystem`) and the
  listing order (`Tagged`, `List`). In the oracle, an enumeration that throws
  is a missing map key. `unbuildable` names the items whose button cannot be
  created: the shell returns no icon for it, or no window handle is left.
  `launchable` says which files the default handler opens without error.
- `History` holds the window's state as a value (`State`) and the handlers as
  functions (`Start`, `Load`, `Activate`, `Back`). Its lemmas cover any
  sequence of clicks (`Run`), with the file system allowed to change between
  clicks.
- `Viewer` holds the window as a class, `MainForm`. Its fields are updated in
  place: `navigationStack`, the `items` of the panel, the `displayed` folder
  (the one the title names) and the `events` reported to the outside. Each
  handler is proved to produce exactly the state that its matching `History`
  function describes:
  - the constructor matches `Start`;
  - `LoadDirectory` matches `Load`;
  - `ItemButtonClick` matches `Activate`;
  - `BackButtonClick` matches `Back`.

  `LoadDirectory` fills the panel with two loops, as the source does.

Details of the code a reader might not expect:

- A folder is pushed before it is loaded. A listing failure is caught inside
  the load, and nothing pops it, so a folder whose listing fails stays on the
  history. The failure only adds a `LoadFailed` event.
- The subfolders are enumerated before the files. Every exception after the
  subfolders were enumerated is caught by the same handler, so it ends the
  listing at that point and the buttons already added stay in the panel. This
  holds in the folder loop and in the file loop alike. Examples are a failure
  to enumerate the files, an icon the shell cannot supply (then
  `Icon.FromHandle` is given a zero handle and throws), or a button whose
  window handle cannot be created.
- A clicked path that is neither an existing folder nor an existing file is
  ignored silently. No error is reported.
- The title is set before the listing is attempted, so it names the folder
  even when the listing fails.

## Model

| member | source | states |
|---|---|---|
| `Directories.Tagged` | Form1.cs:90-100 | one button per enumerated path, in enumeration order, each tagged with its full path and its kind |
| `Directories.FirstIn` | Form1.cs:90-101 | the number of buttons a loop adds before one cannot be made: all paths before it are buildable, and the one at that index is not |
| `Directories.List` | Form1.cs:85-106 | the listing fails exactly when an enumeration throws or some button cannot be made. A clean listing is exactly the subfolders in enumeration order, then the files in enumeration order, each tagged with its kind. A listing that throws part way shows a prefix of that clean listing, in the same order. No folder button comes after a file button, every button shown could be made, and a failed subfolder enumeration shows nothing |
| `Directories.TaggedHas` | Form1.cs:90-100 | an entry is among the tagged buttons exactly when it has that kind and its path was enumerated |
| `Directories.ListingContents` | Form1.cs:89-101 | the panel holds a folder button for a path exactly when the subfolders could be enumerated and the path is one of the subfolders before the first whose button cannot be made. It holds a file button exactly when the folder buttons were all made, the files could be enumerated, and the path is one of the files before the first whose button cannot be made |
| `Directories.ListedItemsExist` | Form1.cs:90-99 | in a consistent file system, every folder button names an existing folder and every file button names an existing file that is not a folder |
| `History.Load` | Form1.cs:81-107 | loading never changes the history. The title names the loaded folder, the panel is that folder's listing, and a failed listing adds exactly one error event |
| `History.Start` | Form1.cs:23-36 | after construction the history is exactly the initial folder, which is current. The invariant holds, the panel shows the initial folder's listing, and the only event is a `LoadFailed` when that listing fails |
| `History.Activate` | Form1.cs:139-159 | an existing folder is pushed unconditionally (size + 1, new current, title). The panel becomes its listing, and a failed listing adds `LoadFailed` while the folder stays pushed. Otherwise history, title and panel are unchanged. An existing file adds one launch or launch-failure event. Any other path changes nothing |
| `History.Back` | Form1.cs:167-175 | with more than one folder, exactly the top is removed, lower entries are unchanged, the folder beneath becomes current and is reloaded, adding `LoadFailed` exactly when its listing fails. With one folder, nothing changes |
| `History.StepKeepsInv` | Form1.cs:143-173 | every click keeps the history non-empty, its bottom the initial folder, and the title on the current folder |
| `History.RunFromKeepsInv` | Form1.cs:143-173 | the invariant survives any sequence of clicks from a state that satisfies it |
| `History.RunKeepsInv` | Form1.cs:23-36 | from construction on, whatever is clicked and however the file system changes, the history is never empty and its bottom is the initial folder |
| `History.BackUndoesEnter` | Form1.cs:143-173 | Back right after entering a folder restores the history and the title, and shows a fresh listing of the previous folder |
| `History.BackTimes` | Form1.cs:169-171 | n Backs in a row change the history exactly as n guarded pops would: each one drops the top unless it is the last entry |
| `History.BackTimesStack` | Form1.cs:167-175 | n Backs in a row remove min(n, size - 1) folders from the top and never the initial one |
| `History.ClickListedItem` | Form1.cs:139-158 | in a consistent file system, clicking a folder button pushes it. Clicking a file button leaves the history alone and reports one launch outcome |
| `History.EnterTwiceBackThrice` | Form1.cs:139-175 | starting at /root and entering /root/a and then /root/a/b, three Backs make /root/a, then /root, then /root again current |
| `Viewer.MainForm.Current` | Form1.cs:172 | on any non-empty history (including right after the pop in the Back handler) it is the top of the history; when the window's invariant holds it is also the folder the title names |
| `Viewer.MainForm.constructor` | Form1.cs:23-36 | the window's state is `History.Start`, and the invariant holds |
| `Viewer.MainForm.LoadDirectory` | Form1.cs:81-107 | the two loops leave the panel equal to `Directories.List`, and the whole new state is `History.Load` of the old one |
| `Viewer.MainForm.ItemButtonClick` | Form1.cs:139-159 | the new state is `History.Activate` of the old one, and the invariant is kept |
| `Viewer.MainForm.BackButtonClick` | Form1.cs:167-175 | the new state is `History.Back` of the old one, and the invariant is kept |

## Left out

- Widget construction, colours, fonts, DPI scaling, the maximised window and the resize handler (Form1.cs:26-31, 38-79, 112-135) are pure presentation and are not modelled.
- Button text: the four spaces and the file name taken from the path (Form1.cs:92, 99, 114) are not modelled. Path parsing is not modelled, and an `Entry` keeps only the tag (the full path) and the kind.
- The title: the model keeps the loaded folder's full path in `displayed`. It does not model taking the folder's name from that path (Form1.cs:84, 162-165).
- The native shell calls for icons (Form1.cs:178-216) and the creation of button window handles (Form1.cs:93, 100) are foreign calls and are not modelled. Only their outcome is modelled, as the `FileSystem` field `unbuildable`: whether a button can be made, which ends the listing when it cannot. Why a button cannot be made is not modelled. For example, handles can pile up across loads because cleared buttons are not disposed (Form1.cs:85).
- The operating system's existence tests, enumerations and default-handler launch become the `FileSystem` oracle. Its `launchable` set stands for whether `Process.Start` throws.
- Message boxes become `LoadFailed` and `LaunchFailed` events. The exception text they show is not modelled.
- The program entry point's argument check (Program.cs:9-13) is not modelled. The constructor accepts any path. A folder that cannot be listed then shows as an empty panel and a `LoadFailed` event.

=== FILE: directories.dfy ===
/** The file system as the directory viewer sees it, and the listing of one
    directory: every subdirectory first, then every file, each item keyed by
    its full path. */
module Directories {

  datatype Kind = Directory | File

  /** One item button of the panel: its tag is the item's full path, and it
      was created either for a folder or for a file. */
  datatype Entry = Entry(path: string, kind: Kind)

  /** What the operating system answers at one moment.
      - `directories`: the paths for which a directory exists;
      - `files`: the paths for which a file exists;
      - `subdirectories[p]`: the full paths of the subdirectories of `p`, in
        the order the system enumerates them; no key `p` means the
        enumeration throws (missing folder, access denied, ...);
      - `contents[p]`: the same for the files of `p`;
      - `unbuildable`: the item paths whose button cannot be made or added
        to the panel. The shell may return no icon: for a folder, the stock
        folder icon; for a file, its own icon, say because the file was
        removed after it was enumerated. Or no window handle may be left for
        the button. Either way the button's creation throws;
      - `launchable`: the files the default handler opens without error. */
  datatype FileSystem = FileSystem(
    directories: set<string>,
    files: set<string>,
    subdirectories: map<string, seq<string>>,
    contents: map<string, seq<string>>,
    unbuildable: set<string>,
    launchable: set<string>)

  /** A file system whose enumerations agree with its existence tests, and in
      which no path is both a folder and a file. */
  ghost predicate Consistent(fs: FileSystem) {
    fs.directories !! fs.files &&
    (forall p | p in fs.subdirectories :: p in fs.directories) &&
    (forall p | p in fs.contents :: p in fs.directories) &&
    (forall p, d | p in fs.subdirectories && d in fs.subdirectories[p] :: d in fs.directories) &&
    (forall p, f | p in fs.contents && f in fs.contents[p] :: f in fs.files)
  }

  /** What loading a directory leaves in the panel, and whether the listing
      threw part way. */
  datatype Listing = Listing(entries: seq<Entry>, failed: bool)

  /** One item per path, in the same order, all of the given kind. */
  function Tagged(paths: seq<string>, kind: Kind): (r: seq<Entry>)
    ensures |r| == |paths|
    ensures forall i :: 0 <= i < |r| ==> r[i].path == paths[i] && r[i].kind == kind
  {
    if paths == [] then [] else [Entry(paths[0], kind)] + Tagged(paths[1..], kind)
  }

  /** An entry is among the tagged items exactly when it carries that kind
      and its path is one of the paths. */
  lemma TaggedHas(paths: seq<string>, kind: Kind, e: Entry)
    ensures e in Tagged(paths, kind) <==> e.kind == kind && e.path in paths
  {
  }

  /** Tagging the first `k` paths gives the first `k` tagged items. */
  lemma TaggedPrefix(paths: seq<string>, k: nat, kind: Kind)
    requires k <= |paths|
    ensures Tagged(paths[..k], kind) <= Tagged(paths, kind)
  {
  }

  /** The number of paths before the first one in `bad`: all of them when
      none is. */
  function FirstIn(paths: seq<string>, bad: set<string>): (k: nat)
    ensures k <= |paths|
    ensures forall i :: 0 <= i < k ==> paths[i] !in bad
    ensures k < |paths| ==> paths[k] in bad
  {
    if paths == [] || paths[0] in bad then 0 else 1 + FirstIn(paths[1..], bad)
  }

  /** A folder the viewer lists without any exception: both enumerations
      succeed and every button can be made. */
  ghost predicate ListsCleanly(fs: FileSystem, path: string) {
    path in fs.subdirectories && path in fs.contents &&
    (forall d :: d in fs.subdirectories[path] ==> d !in fs.unbuildable) &&
    (forall f :: f in fs.contents[path] ==> f !in fs.unbuildable)
  }

  /** The panel after loading `path`: the subdirectory items, then the file
      items. The subdirectories are enumerated first; when that throws the
      panel stays empty. Any later exception (a button that cannot be made,
      or the files cannot be enumerated) ends the listing there, and the
      items already added stay in the panel. */
  function List(fs: FileSystem, path: string): (r: Listing)
    ensures r.failed <==> !ListsCleanly(fs, path)
    ensures !r.failed ==>
      r.entries == Tagged(fs.subdirectories[path], Directory) + Tagged(fs.contents[path], File)
    // Even a listing that threw part way shows the first buttons of the
    // clean listing, in enumeration order.
    ensures path in fs.subdirectories ==>
      r.entries <= Tagged(fs.subdirectories[path], Directory) +
                   (if path in fs.contents then Tagged(fs.contents[path], File) else [])
    ensures forall i, j :: 0 <= i < j < |r.entries| && r.entries[i].kind == File ==> r.entries[j].kind == File
    ensures forall i :: 0 <= i < |r.entries| ==> r.entries[i].path !in fs.unbuildable
    ensures path !in fs.subdirectories ==> r.entries == []
  {
    if path !in fs.subdirectories then Listing([], true)
    else
      var subfolders := fs.subdirectories[path];
      var made := FirstIn(subfolders, fs.unbuildable);
      if made < |subfolders| then
        TaggedPrefix(subfolders, made, Directory);
        Listing(Tagged(subfolders[..made], Directory), true)
      else
        var folders := Tagged(subfolders, Directory);
        if path !in fs.contents then Listing(folders, true)
        else
          var files := fs.contents[path];
          var shown := FirstIn(files, fs.unbuildable);
          TaggedPrefix(files, shown, File);
          Listing(folders + Tagged(files[..shown], File), shown < |files|)
  }

  /** Which items a listing holds: once the subdirectories could be
      enumerated, a folder item for every subdirectory before the first one
      whose button cannot be made; once all of those were made and the files
      could be enumerated, a file item for every file before the first one
      whose button cannot be made; and nothing else. */
  lemma ListingContents(fs: FileSystem, path: string)
    ensures forall d :: Entry(d, Directory) in List(fs, path).entries <==>
      path in fs.subdirectories &&
      d in fs.subdirectories[path][..FirstIn(fs.subdirectories[path], fs.unbuildable)]
    ensures forall f :: Entry(f, File) in List(fs, path).entries <==>
      path in fs.subdirectories &&
      FirstIn(fs.subdirectories[path], fs.unbuildable) == |fs.subdirectories[path]| &&
      path in fs.contents && f in fs.contents[path][..FirstIn(fs.contents[path], fs.unbuildable)]
  {
  }

  /** In a consistent file system every folder item names an existing
      folder and every file item an existing file that is not a folder. */
  lemma ListedItemsExist(fs: FileSystem, path: string, e: Entry)
    requires Consistent(fs)
    requires e in List(fs, path).entries
    ensures e.kind == Directory ==> e.path in fs.directories
    ensures e.kind == File ==> e.path in fs.files && e.path !in fs.directories
  {
  }
}

=== FILE: history.dfy ===
/** The navigation history of the main window as values: the stack of
    visited folders, the folder whose name the title shows, the items in the
    panel, and the messages and launches the window has produced. The
    functions here specify the window's event handlers; the lemmas state what
    the history promises over any run of clicks. */
module History {
  import opened Directories

  /** What the window reports to the outside: a message box after a failed
      listing, a file handed to the default handler, or a message box after
      that hand-over failed. */
  datatype Event = LoadFailed(path: string) | Launched(path: string) | LaunchFailed(path: string)

  /** `stack` has its bottom first and its top (the current folder) last. */
  datatype State = State(stack: seq<string>, displayed: string, panel: seq<Entry>, events: seq<Event>)

  function Top(s: State): string
    requires s.stack != []
  {
    s.stack[|s.stack| - 1]
  }

  /** The window's invariant: the history is never empty, its bottom is the
      folder the window was opened on, and the title shows the current folder. */
  ghost predicate Inv(s: State, initial: string) {
    s.stack != [] && s.stack[0] == initial && s.displayed == Top(s)
  }

  /** Loading a folder: the title is set first, the panel is cleared and
      refilled with the listing, and a failed listing adds a message. The
      history is never touched, so a folder whose listing fails stays pushed. */
  function Load(s: State, fs: FileSystem, path: string): (r: State)
    ensures r.stack == s.stack && r.displayed == path
    ensures r.panel == List(fs, path).entries
    ensures List(fs, path).failed ==> r.events == s.events + [LoadFailed(path)]
    ensures !List(fs, path).failed ==> r.events == s.events
  {
    var listing := List(fs, path);
    State(s.stack, path, listing.entries,
          if listing.failed then s.events + [LoadFailed(path)] else s.events)
  }

  /** The window as its constructor leaves it: the initial folder pushed,
      then loaded. */
  function Start(fs: FileSystem, initial: string): (r: State)
    ensures r.stack == [initial] && Top(r) == initial
    ensures Inv(r, initial)
    ensures r.panel == List(fs, initial).entries
    ensures r.events == if List(fs, initial).failed then [LoadFailed(initial)] else []
  {
    Load(State([initial], "", [], []), fs, initial)
  }

  /** Clicking the item tagged `path`. The folder test comes first: an
      existing folder is pushed (even when it is already on the history)
      and then loaded. Otherwise an existing file is handed to the default
      handler, whose failure is caught and reported. Anything else is
      ignored. */
  function Activate(s: State, fs: FileSystem, path: string): (r: State)
    ensures path in fs.directories ==>
      r.stack == s.stack + [path] && Top(r) == path && |r.stack| == |s.stack| + 1 && r.displayed == path
    ensures path in fs.directories ==>
      r.panel == List(fs, path).entries &&
      r.events == if List(fs, path).failed then s.events + [LoadFailed(path)] else s.events
    ensures path !in fs.directories ==>
      r.stack == s.stack && r.displayed == s.displayed && r.panel == s.panel
    ensures path !in fs.directories && path in fs.files ==>
      r.events == s.events + [if path in fs.launchable then Launched(path) else LaunchFailed(path)]
    ensures path !in fs.directories && path !in fs.files ==> r == s
  {
    if path in fs.directories then
      Load(s.(stack := s.stack + [path]), fs, path)
    else if path in fs.files then
      s.(events := s.events + [if path in fs.launchable then Launched(path) else LaunchFailed(path)])
    else
      s
  }

  /** Clicking Back: with more than one folder on the history the top is
      removed and the folder beneath it is loaded; with one folder left the
      click does nothing. */
  function Back(s: State, fs: FileSystem): (r: State)
    ensures |s.stack| > 1 ==>
      r.stack != [] && r.stack + [Top(s)] == s.stack && r.displayed == Top(r) == s.stack[|s.stack| - 2]
    ensures |s.stack| > 1 ==> r.panel == List(fs, Top(r)).entries
    ensures |s.stack| > 1 ==>
      r.events == if List(fs, Top(r)).failed then s.events + [LoadFailed(Top(r))] else s.events
    ensures |s.stack| <= 1 ==> r == s
  {
    if |s.stack| > 1 then
      var below := s.stack[..|s.stack| - 1];
      Load(s.(stack := below), fs, below[|below| - 1])
    else
      s
  }

  /** One user action, with the file system as it is at that moment. */
  datatype Click = Item(fs: FileSystem, path: string) | BackButton(fs: FileSystem)

  function Step(s: State, c: Click): State {
    match c
    case Item(fs, path) => Activate(s, fs, path)
    case BackButton(fs) => Back(s, fs)
  }

  /** The state after a sequence of clicks, first click first. */
  function Run(s: State, clicks: seq<Click>): State
    decreases |clicks|
  {
    if clicks == [] then s else Run(Step(s, clicks[0]), clicks[1..])
  }

  /** Every click keeps the invariant. */
  lemma StepKeepsInv(s: State, c: Click, initial: string)
    requires Inv(s, initial)
    ensures Inv(Step(s, c), initial)
  {
  }

  /** Whatever the user clicks and however the file system changes in
      between, the history is never empty, its bottom stays the initial
      folder, and the title shows the current folder. */
  lemma {:induction false} RunKeepsInv(fs: FileSystem, initial: string, clicks: seq<Click>)
    ensures Inv(Run(Start(fs, initial), clicks), initial)
  {
    RunFromKeepsInv(Start(fs, initial), clicks, initial);
  }

  lemma {:induction false} RunFromKeepsInv(s: State, clicks: seq<Click>, initial: string)
    requires Inv(s, initial)
    ensures Inv(Run(s, clicks), initial)
    decreases |clicks|
  {
    if clicks != [] {
      StepKeepsInv(s, clicks[0], initial);
      RunFromKeepsInv(Step(s, clicks[0]), clicks[1..], initial);
    }
  }

  /** Back undoes entering a folder: the history and the title are as they
      were before the folder was entered, whatever the file system looks like
      by then, and the panel shows a fresh listing of that folder. */
  lemma BackUndoesEnter(s: State, fs: FileSystem, later: FileSystem, path: string, initial: string)
    requires Inv(s, initial)
    requires path in fs.directories
    ensures Back(Activate(s, fs, path), later).stack == s.stack
    ensures Back(Activate(s, fs, path), later).displayed == s.displayed
    ensures Back(Activate(s, fs, path), later).panel == List(later, Top(s)).entries
  {
    var entered := Activate(s, fs, path);
    assert entered.stack[..|entered.stack| - 1] == s.stack;
  }

  /** The history after one Back: the top removed unless it is the last entry. */
  function Pop(st: seq<string>): seq<string> {
    if |st| > 1 then st[..|st| - 1] else st
  }

  /** The history after `n` Backs. */
  function PopTimes(st: seq<string>, n: nat): seq<string>
    decreases n
  {
    if n == 0 then st else PopTimes(Pop(st), n - 1)
  }

  /** What one Back does to the history alone. */
  lemma BackPops(s: State, fs: FileSystem)
    ensures Back(s, fs).stack == Pop(s.stack)
  {
  }

  /** `n` clicks on Back in a row: each one pops the history, and only the
      history, as `Pop` describes. */
  function BackTimes(s: State, fs: FileSystem, n: nat): (r: State)
    ensures r.stack == PopTimes(s.stack, n)
    decreases n
  {
    if n == 0 then s
    else
      BackPops(s, fs);
      BackTimes(Back(s, fs), fs, n - 1)
  }

  /** `n` Backs keep the bottom `max(1, size - n)` entries of the history. */
  lemma {:induction false} PopTimesPrefix(st: seq<string>, n: nat)
    requires st != []
    ensures n < |st| ==> PopTimes(st, n) == st[..|st| - n]
    ensures n >= |st| ==> PopTimes(st, n) == st[..1]
    decreases n
  {
    if n > 0 {
      PopTimesPrefix(Pop(st), n - 1);
      if |st| > 1 {
        var below := st[..|st| - 1];
        assert n < |st| ==> below[..|below| - (n - 1)] == st[..|st| - n];
        assert below[..1] == st[..1];
      }
    }
  }

  /** Repeated Back removes one folder per click until only the initial
      folder is left, and never goes beyond it. */
  lemma BackTimesStack(s: State, fs: FileSystem, n: nat)
    requires s.stack != []
    ensures n < |s.stack| ==> BackTimes(s, fs, n).stack == s.stack[..|s.stack| - n]
    ensures n >= |s.stack| ==> BackTimes(s, fs, n).stack == s.stack[..1]
  {
    PopTimesPrefix(s.stack, n);
  }

  /** In a consistent file system, clicking an item of the panel does what
      the item was created for: a folder item is entered, a file item is
      launched and leaves the history alone. */
  lemma ClickListedItem(s: State, fs: FileSystem, path: string, e: Entry)
    requires Consistent(fs)
    requires e in List(fs, path).entries
    ensures e.kind == Directory ==> Activate(s, fs, e.path).stack == s.stack + [e.path]
    ensures e.kind == File ==>
      Activate(s, fs, e.path).stack == s.stack &&
      Activate(s, fs, e.path).events ==
        s.events + [if e.path in fs.launchable then Launched(e.path) else LaunchFailed(e.path)]
  {
  }

  /** Start at /root, enter /root/a, enter /root/a/b, then click Back three
      times: the current folder goes /root/a, /root, /root. */
  lemma EnterTwiceBackThrice(fs: FileSystem)
    requires "/root" in fs.directories && "/root/a" in fs.directories && "/root/a/b" in fs.directories
    ensures var s0 := Start(fs, "/root");
      var s2 := Activate(Activate(s0, fs, "/root/a"), fs, "/root/a/b");
      Top(Back(s2, fs)) == "/root/a" &&
      Top(Back(Back(s2, fs), fs)) == "/root" &&
      Back(Back(Back(s2, fs), fs), fs).stack == ["/root"]
  {
  }
}

=== FILE: viewer.dfy ===
/** The main window of the directory viewer as an object whose fields its
    event handlers update in place. Each handler is proved to leave the
    window in the state the matching function of `History` describes. */
module Viewer {
  import opened Directories
  import opened History

  /** The panel after the folder buttons and the first `j` file buttons. */
  lemma PanelSoFar(items: seq<Entry>, folders: seq<string>, files: seq<string>, j: nat)
    requires j <= |files| && |items| == |folders| + j
    requires items[..|folders|] == Tagged(folders, Directory)
    requires forall k :: 0 <= k < j ==> items[|folders| + k] == Entry(files[k], File)
    ensures items == Tagged(folders, Directory) + Tagged(files[..j], File)
  {
    var tail := items[|folders|..];
    forall k | 0 <= k < j
      ensures tail[k] == Tagged(files[..j], File)[k]
    {
      assert tail[k] == items[|folders| + k];
    }
    assert tail == Tagged(files[..j], File);
    assert items == items[..|folders|] + tail;
  }

  class MainForm {
    /** The folders visited, bottom first; the current folder is last. */
    var navigationStack: seq<string>
    /** The folder whose name the title bar shows. */
    var displayed: string
    /** The item buttons of the panel, in display order. */
    var items: seq<Entry>
    /** Messages shown and files handed to the default handler, oldest first. */
    var events: seq<Event>
    /** The folder the window was opened on. */
    ghost const initialDirectory: string

    function Model(): State
      reads this
    {
      State(navigationStack, displayed, items, events)
    }

    ghost predicate Valid()
      reads this
    {
      Inv(Model(), initialDirectory)
    }

    /** The folder on top of the history; between the handlers it is the
        folder the title names. */
    function Current(): (r: string)
      reads this
      requires navigationStack != []
      ensures r == Top(Model())
      ensures Valid() ==> r == displayed
    {
      navigationStack[|navigationStack| - 1]
    }

    /** Opens the window on `initialDirectory`: it is pushed, then loaded. */
    constructor (fs: FileSystem, initialDirectory: string)
      ensures Valid() && this.initialDirectory == initialDirectory
      ensures Model() == Start(fs, initialDirectory)
    {
      this.initialDirectory := initialDirectory;
      navigationStack := [initialDirectory];
      displayed := "";
      items := [];
      events := [];
      new;
      LoadDirectory(fs, initialDirectory);
    }

    /** Sets the title, clears the panel, then adds one folder button per
        subdirectory and one file button per file. An exception (an
        enumeration that fails, a button that cannot be made) ends the
        listing with a message; the buttons added so far stay. */
    method LoadDirectory(fs: FileSystem, path: string)
      modifies this
      ensures Model() == Load(old(Model()), fs, path)
    {
      displayed := path;
      items := [];
      if path !in fs.subdirectories {
        events := events + [LoadFailed(path)];
        return;
      }
      var folders := fs.subdirectories[path];
      var i := 0;
      while i < |folders|
        invariant 0 <= i <= |folders|
        invariant |items| == i
        invariant forall k :: 0 <= k < i ==> items[k] == Entry(folders[k], Directory)
        invariant forall k :: 0 <= k < i ==> folders[k] !in fs.unbuildable
        invariant navigationStack == old(navigationStack) && events == old(events) && displayed == path
      {
        if folders[i] in fs.unbuildable {
          assert FirstIn(folders, fs.unbuildable) == i;
          assert items == Tagged(folders[..i], Directory);
          events := events + [LoadFailed(path)];
          return;
        }
        items := items + [Entry(folders[i], Directory)];
        i := i + 1;
      }
      assert FirstIn(folders, fs.unbuildable) == |folders|;
      // The invariant gives the items one by one; List speaks of Tagged.
      assert items == Tagged(folders, Directory);
      if path !in fs.contents {
        events := events + [LoadFailed(path)];
        return;
      }
      var files := fs.contents[path];
      var j := 0;
      while j < |files|
        invariant 0 <= j <= |files|
        invariant |items| == |folders| + j
        invariant items[..|folders|] == Tagged(folders, Directory)
        invariant forall k :: 0 <= k < j ==> items[|folders| + k] == Entry(files[k], File)
        invariant forall k :: 0 <= k < j ==> files[k] !in fs.unbuildable
        invariant navigationStack == old(navigationStack) && events == old(events) && displayed == path
      {
        if files[j] in fs.unbuildable {
          assert FirstIn(files, fs.unbuildable) == j;
          PanelSoFar(items, folders, files, j);
          events := events + [LoadFailed(path)];
          return;
        }
        items := items + [Entry(files[j], File)];
        j := j + 1;
      }
      assert FirstIn(files, fs.unbuildable) == |files|;
      PanelSoFar(items, folders, files, j);
    }

    /** A click on the item button tagged `path`: an existing folder is
        pushed and loaded, an existing file is handed to the default handler
        (a failure of which is reported), anything else is ignored. */
    method ItemButtonClick(fs: FileSystem, path: string)
      requires Valid()
      modifies this
      ensures Valid()
      ensures Model() == Activate(old(Model()), fs, path)
    {
      if path in fs.directories {
        navigationStack := navigationStack + [path];
        LoadDirectory(fs, path);
      } else if path in fs.files {
        if path in fs.launchable {
          events := events + [Launched(path)];
        } else {
          events := events + [LaunchFailed(path)];
        }
      }
    }

    /** A click on Back: with more than one folder on the history the top
        is popped and the folder beneath is loaded; otherwise nothing. */
    method BackButtonClick(fs: FileSystem)
      requires Valid()
      modifies this
      ensures Valid()
      ensures Model() == Back(old(Model()), fs)
    {
      if |navigationStack| > 1 {
        navigationStack := navigationStack[..|navigationStack| - 1];
        var previous := Current();
        LoadDirectory(fs, previous);
      }
    }
  }
}
